=== FILE: README.md ===
# go-page-process in Dafny

A model of the page processor in `proccessor.go`. This is a small static site generator with three steps:

1. It loads Handlebars templates from `.processor/templates`.
2. It folds the data files under `shared` into one nested context.
3. It walks `data` and renders every page file. A page file is one whose data carries a `_page` mapping naming a template and, optionally, an output path.

The file system is an inductive tree:

- `Tree.Entry` is either a `File` with optional content (`None` when the read fails) or a `Dir` with a `readable` flag and an ordered listing.
- A root that may be missing is an `Option<Entry>`.

Things outside the code are function-valued parameters:

- the three parsers (`Data.Parser`);
- the template engine's compiler and executor (`Templates.Compiler`, `Render.Executor`);
- whether `os.MkdirAll` succeeds (`Renderer.mkdirOk`).

A run of the processor returns a `Processor.Report`. It is either the template-load error that aborted the run, or the ordered list of effects together with whether a page panicked. An effect is a call to `os.MkdirAll` or `ioutil.WriteFile`, recorded whether or not the call succeeds.

Modules, in dependency order:

- `Wrappers`: `Option` and `Result`.
- `Paths`: the parts of `path/filepath` the processor relies on (`Ext`, `Base`, `Dir` as `ParentDir`, `Join`), plus `prefix`.
- `Tree`: the directory tree, and the flat list of files a depth-first walk reaches (`Files`).
- `Data`: decoded values and the extension dispatch of `loadFile`.
- `Templates`: `loadTemplates`. It is a walk whose contract ties it to a flat reference fold (`RegisterAll`).
- `Shared`: the `loadShared` fold and its last-writer-wins contract. The fold is stated for any file loader (`Shared.Loader`); `LoadShared` uses `loadFile`.
- `Render`: `renderFile` as an `Outcome` (skipped, stopped after the `MkdirAll` call, `WriteFile` called, or panicked).
- `Processor`: the `convertPath` walk, its flat reference `RenderAll`, and `Process`.
- `Examples`: concrete trees and names.

Three behaviours of `proccessor.go` worth stating:

- A missing data root is not fatal. `convertPath` logs and returns, so the run simply writes nothing.
- A missing template root is fatal, just like an unreadable one. `filepath.Walk` hands the stat error to the callback, which returns it.
- A template root that is a regular file loads successfully with no templates. The walk's callback sees one non-directory without the `.hbs` extension.

## Model

| member | source | states |
|---|---|---|
| Paths.Prefix | proccessor.go:90-92 | the prefix followed by the name's extension gives back the name, and a name without a '.' is returned unchanged |
| Paths.PrefixOfSuffix | proccessor.go:90-92 | for `q.x` where `x` has no '.' or '/', the prefix is `q`: only the last extension is cut |
| Paths.Ext | proccessor.go:102 | the extension the dispatch switches on is a suffix of the path and, when not empty, starts with '.' |
| Paths.ExtShape | proccessor.go:102 | an extension contains no second '.' and no separator, and it is empty exactly when every '.' in the path is followed by a separator |
| Paths.ExtOfSuffix | proccessor.go:102 | the extension of `q.x` is `.x` whenever `x` has no '.' or separator, whatever `q` is |
| Paths.ExtOfJoin | proccessor.go:81 | joining a directory in front of a non-empty name does not change the extension |
| Paths.Base | proccessor.go:160 | the base name is never empty, and it is "/" or a single element without separators |
| Paths.BaseOfJoin | proccessor.go:160 | the base name of `dir/name` is `name` for any single non-empty element |
| Paths.JoinShape | proccessor.go:81 | `Join(dir, name)` lies inside `dir`, ends with `name`, and puts exactly one separator between two non-empty parts (`Join` itself is the join of lines 78, 81, 131, 133 and 168) |
| Paths.ParentDir | proccessor.go:169 | a path without a separator has parent "."; otherwise the parent is "/" or a proper prefix of the path that ends just before a separator |
| Paths.ParentDirOfJoin | proccessor.go:169 | the parent of `dir/name` is `dir` when `dir` does not end in a separator and `name` is a single element |
| Tree.Files | proccessor.go:129-135 | every file a walk reaches from a directory lies inside that directory |
| Data.FormatOf | proccessor.go:102-112 | a parser is selected exactly for `.json`, `.json5`, `.yaml`, `.yml` and `.toml` |
| Data.LoadFile | proccessor.go:94-119 | an unreadable file or an unknown extension gives no data; `.json`/`.json5` go to the JSON parser, `.yaml`/`.yml` to YAML and `.toml` to TOML, and that parser's verdict is the result |
| Data.LoadFileByName | proccessor.go:81 | the parser a file in a directory gets depends only on the file's own name |
| Templates.TemplateName | proccessor.go:50 | the template name is the path after `.processor/templates/` with `.hbs` removed: root, separator, name and extension give back the path |
| Templates.TemplateKey | proccessor.go:45-56 | a file below the template root is registered exactly when its extension is `.hbs`, and a registered name rebuilds the file's path |
| Templates.TemplateKeyOfName | proccessor.go:45-56 | inverse of the name derivation: `name.hbs` below the root registers as `name`, nested directories included |
| Templates.ReachedTemplateIffHbs | proccessor.go:45 | every file the template walk reaches is registered exactly when its extension is `.hbs` |
| Templates.Register | proccessor.go:45-56 | one callback fails exactly when a `.hbs` file cannot be read or does not compile, with that file's error; on success only that file's name is added or replaced, with its content, and every other name is kept |
| Templates.RegisterAllSucceeds | proccessor.go:41-63 | a registration pass succeeds exactly when every template it meets can be read and compiles |
| Templates.RegisterAllKeys | proccessor.go:51-56 | the registered names are exactly the names of the templates met |
| Templates.RegisterAllLastWins | proccessor.go:56 | under each name sits the content of the last template met with that name |
| Templates.RegisterAllAppend | proccessor.go:41-60 | registering a concatenation is registering its parts in turn, and the later part overrides the earlier |
| Templates.LoadTemplatesDir | proccessor.go:41-60 | the walk registers the reached files in walk order when every directory can be listed, and fails otherwise |
| Templates.LoadTemplates | proccessor.go:38-65 | loading succeeds iff the root exists, every directory below it can be listed and every `.hbs` file can be read and compiles; a successful load is the flat registration of the reached files |
| Templates.LoadTemplatesNames | proccessor.go:45-56 | after a successful load the names are exactly the derived names of the `.hbs` files reached |
| Templates.LoadTemplatesLastWins | proccessor.go:56 | after a successful load each name holds the content of the last `.hbs` file reached with that name |
| Shared.LoadShared | proccessor.go:67-74 | a shared root that is missing or cannot be listed gives an empty context |
| Shared.KeyOf | proccessor.go:77-84 | a subdirectory lands under its own name; a file lands somewhere exactly when it yields data |
| Shared.ValueOf | proccessor.go:77-84 | every entry contributes a mapping: a file its own data, an unlistable subdirectory an empty one |
| Shared.LoadSharedDir | proccessor.go:76-87 | every value in a directory's context is itself a mapping: a nested context or a file's data |
| Shared.SharedKeys | proccessor.go:76-86 | the keys of a directory's context are exactly the subdirectory names and the prefixes of the files that yield data |
| Shared.SharedLastWins | proccessor.go:76-86 | under each key sits the value of the last entry landing on it |
| Shared.SharedSubdir | proccessor.go:77-78 | unless a later entry lands on the same key, a subdirectory maps to its own recursively built context under its exact name; an unlistable one maps to an empty context |
| Shared.SharedFile | proccessor.go:79-84 | unless a later entry lands on the same key, a file that yields data maps to that data under its prefix |
| Shared.SharedSkipsNoData | proccessor.go:81-84 | a file that yields no data leaves the context exactly as if it were absent |
| Render.PagePlan | proccessor.go:140-162 | a file is a page exactly when it yields data, `_page` is a string-keyed mapping and `_page.template` is a string; the output name is `_page.output` when it is a string, else the file's base name |
| Render.Destination | proccessor.go:164-168 | an empty output name has no destination (the index panics); otherwise one leading '/' is dropped and the rest is joined under the output root |
| Render.PageValue | proccessor.go:151 | the template sees the page data with the shared context under `_shared` and every other key unchanged |
| Render.RenderFile | proccessor.go:138-192 | the three skip cases give no effects; an empty output panics with no effects; otherwise the first effect is the `MkdirAll` call for the destination's parent, whether or not it succeeds; `WriteFile` is called iff the directories are created, the template exists and executes, and then with the executed content at the destination |
| Render.ValidPageIsWritten | proccessor.go:164-188 | for a page with a non-empty output whose template is loaded and executes, once its directories are created, `WriteFile` is called at its destination with the executed content |
| Render.MissingTemplateOnlyCreatesDirs | proccessor.go:169-179 | with an unknown template name `MkdirAll` is still called, and `WriteFile` is not |
| Render.DestinationIgnoresLeadingSep | proccessor.go:164-168 | `/x` and `x` resolve to the same destination |
| Render.FallbackIsSourceName | proccessor.go:158-162 | without a string `_page.output` the output name is the source file's name, extension included |
| Render.FallbackCollision | proccessor.go:158-168 | two pages with the same file name in different directories and no `_page.output` have `WriteFile` called, if at all, at `name` directly under the output root |
| Processor.RenderAllAppend | proccessor.go:129-135 | rendering a concatenation is rendering its parts in turn, and nothing after a panic runs |
| Processor.RenderAllEffects | proccessor.go:129-135 | a walk panics exactly when one of its files does, and every effect comes from rendering one of its files |
| Processor.RenderAllStopsAtPanic | proccessor.go:164 | the first panicking page ends the walk: what ran is everything before it, plus that page |
| Processor.ConvertDir | proccessor.go:121-136 | the recursive walk renders every reachable non-directory exactly once, in walk order, skipping unlistable subdirectories |
| Processor.ConvertPath | proccessor.go:121-136 | from the data root, every reachable file is rendered once; a missing or unlistable root does nothing |
| Processor.Process | proccessor.go:23-36 | the run aborts exactly when loading the templates fails, with that error; otherwise it is the data walk rendered with the loaded templates and the shared context |
| Processor.AbortIgnoresSharedAndData | proccessor.go:25-29 | when templates fail, the shared and data trees have no influence on the run |
| Processor.WriteComesFromPage | proccessor.go:175-191 | a page calls `WriteFile` only at its own destination, and only with a loaded template |
| Processor.WritesComeFromPages | proccessor.go:129-191 | every `WriteFile` call of a run belongs to a reached page whose template was loaded, at that page's destination |
| Examples.PrefixExample | proccessor.go:90-92 | `archive.tar.gz` has prefix `archive.tar` |
| Examples.DotFilePrefix | proccessor.go:90-92 | a dot-file such as `.x` has an empty prefix |
| Examples.TemplateNameExample | proccessor.go:50 | `.processor/templates/page/list.hbs` registers as `page/list` |
| Examples.KeyOfDataFile | proccessor.go:79-84 | a shared file `k.x` whose extension selects a parser that accepts its content lands under `k` with that data |
| Examples.JsonFileExample | proccessor.go:67-88 | a directory holding only `a.json` maps `a` to the file's data |
| Examples.YamlFileExample | proccessor.go:67-88 | a directory holding only `c.yaml` maps `c` to the file's data |
| Examples.SubdirShadowedByFile | proccessor.go:76-86 | a subdirectory `b` listed before a file `b.json` loses its key to the file's data |
| Examples.SharedExample | proccessor.go:76-87 | a `shared` directory whose `a.json` loads as `{"x":1}` and whose `b/c.yaml` loads as `{"y":2}` gives `{"a": {"x":1}, "b": {"c": {"y":2}}}` |
| Examples.UnreadableTemplatesAbort | proccessor.go:25-29 | an unlistable template root aborts the run before any effect |

## Left out

- Real file I/O is not modelled. File contents and directory listings are inputs, and the writes are the returned `WriteFile` effects, each standing for one call to `ioutil.WriteFile`. A failed write is only logged; the model does not tell it apart from a successful one. A failed call may still leave a created or truncated file behind, when the open succeeds and the write itself fails (a full disk, say). With `_page.output` "/" the destination is the output root itself: the call fails when that directory exists and otherwise creates a regular file at its path; the model records `Written` either way.
- Directory listing order: `ioutil.ReadDir` and `filepath.Walk` sort by name. The model takes each listing in the order the tree gives it.
- `filepath.Join` and `filepath.Dir` are modelled without `Clean`. That means no collapsing of `.`, `..` or repeated separators and no stripping of trailing separators; only empty elements are dropped. So `Destination` keeps the second '/' of `//x`, where Go's cleaning join makes it the same file as `x`. Likewise, with output root "pages" and `_page.output` "x/", Go creates "pages" and writes "pages/x", while the model calls `MkdirAll` on "pages/x" and `WriteFile` on "pages/x/". For the same reason a destination always lies lexically under the output root (`Paths.JoinShape`), while Go's join sends `_page.output` "../x" to `x`, outside the output directory: `JoinShape` is no containment guarantee for real destinations.
- Symbolic links, `Lstat` details and file permissions are not modelled.
- Only '/' is a separator, so `filepath.ToSlash` is the identity.
- The JSON, YAML and TOML parsers are one abstract function. `.json5` goes to the JSON parser, as the code does. A parse error and a document that decodes to a nil map both count as no data.
- yaml.v2 decodes nested mappings as `map[interface{}]interface{}`. This is `Data.Value.AnyMap`, which fails the `_page` shape test. Which documents produce it is up to the abstract parser.
- Floating-point numbers: numbers are modelled as integers (`Num(int)`), so a value such as 1.5, which `encoding/json` decodes as a float64, has no `Value`. This is harmless because the processor never inspects numbers; it only passes them on to the template.
- The raymond engine is abstract: `Parse` is a compile predicate, and `Exec` is an executor that receives the registry of loaded templates.
- The process-wide `RegisterPartial` registry is passed explicitly as that registry.
- raymond panics when a partial name is registered twice. That cannot happen for the distinct paths of one real directory walk, so it is not modelled. If a tree does repeat a name in one listing, the model lets the last file win.
- `os.MkdirAll` success is a per-directory oracle (`mkdirOk`). The `MkdirAll` effect records the call, not the creation of directories: it is recorded even when the call fails.
- Logging is not modelled. Neither is `main.go`, with its flag parsing, usage text and `os.Exit`.
- The panic on an empty `_page.output` is modelled as an outcome that ends the walk (`Run.panicked`), not as a crash of the process.

=== FILE: data.dfy ===
/** Structured data and `loadFile` (proccessor.go): the parser is chosen by the file's
    extension, and an unknown extension, an unreadable file or a parse failure give no data. */
module Data {
  import opened Wrappers
  import opened Paths
  import opened Tree

  /** A decoded value, as the Go parsers leave it inside an `interface{}`. */
  datatype Value =
    | Null
    | Bool(b: bool)
    | Num(n: int)
    | Str(s: string)
    | List(items: seq<Value>)
      /** `map[string]interface{}` */
    | Obj(fields: map<string, Value>)
      /** `map[interface{}]interface{}`, the shape yaml.v2 gives nested mappings */
    | AnyMap(pairs: seq<(Value, Value)>)

  /** The top-level mapping a data file decodes to. */
  type Fields = map<string, Value>

  /** The three serialization formats the processor understands. */
  datatype Format = Json | Yaml | Toml

  /** The parsers: decode `content` in the given format. `None` stands for a parse error and
      for a document that decodes to a nil map. */
  type Parser = (Format, Bytes) -> Option<Fields>

  /** The extensions `loadFile` recognises. */
  const KnownExts: set<string> := {".json", ".json5", ".yaml", ".yml", ".toml"}

  /** The format an extension selects; `.json5` goes to the plain JSON parser. */
  function FormatOf(ext: string): (f: Option<Format>)
    ensures f.Some? <==> ext in KnownExts
  {
    if ext == ".json" || ext == ".json5" then Some(Json)
    else if ext == ".yaml" || ext == ".yml" then Some(Yaml)
    else if ext == ".toml" then Some(Toml)
    else None
  }

  /** `loadFile`: read the file at `path` (its content is `content`) and decode it with the
      parser its extension selects. */
  function LoadFile(parse: Parser, path: string, content: Option<Bytes>): (r: Option<Fields>)
    ensures content.None? ==> r.None?
    ensures Ext(path) !in KnownExts ==> r.None?
    ensures content.Some? && Ext(path) in {".json", ".json5"} ==> r == parse(Json, content.value)
    ensures content.Some? && Ext(path) in {".yaml", ".yml"} ==> r == parse(Yaml, content.value)
    ensures content.Some? && Ext(path) == ".toml" ==> r == parse(Toml, content.value)
  {
    match content
    case None => None
    case Some(bytes) =>
      match FormatOf(Ext(path))
      case None => None
      case Some(format) => parse(format, bytes)
  }

  /** Which parser a file in a directory gets depends on its own name only. */
  lemma LoadFileByName(parse: Parser, dir: string, name: string, content: Option<Bytes>)
    requires name != ""
    ensures LoadFile(parse, Join(dir, name), content) == LoadFile(parse, name, content)
  {
    ExtOfJoin(dir, name);
  }
}

=== FILE: examples.dfy ===
/** Concrete instances of the processor's behaviour on small directory trees. */
module Examples {
  import opened Wrappers
  import opened Paths
  import opened Tree
  import opened Data
  import opened Templates
  import opened Shared
  import opened Processor

  /** `prefix` strips only the last extension. */
  lemma PrefixExample()
    ensures Prefix("archive.tar.gz") == "archive.tar"
  {
    var archive := "archive.tar";
    PrefixOfSuffix(archive, "gz");
    assert archive + ['.'] + "gz" == "archive.tar.gz";
  }

  /** `prefix` of a dot-file with no further '.' is empty: its whole name is the extension. */
  lemma DotFilePrefix(x: string)
    requires forall j :: 0 <= j < |x| ==> x[j] != '.' && x[j] != Sep
    ensures Prefix(['.'] + x) == ""
  {
    ExtOfSuffix([], x);
    assert [] + ['.'] + x == ['.'] + x;
  }

  /** `page/list.hbs` below the template root is registered as `page/list`. */
  lemma TemplateNameExample(c: Option<Bytes>)
    ensures TemplateKey(FileRef(".processor/templates/page/list.hbs", c)) == Some("page/list")
  {
    var name := "page/list";
    TemplateKeyOfName(name, c);
    assert TemplatesDir + [Sep] + name + TemplateExt == ".processor/templates/page/list.hbs";
  }

  /** A data file named `k.x` in the directory at `path` lands under `k` with its data, when
      `x` selects a parser that accepts the content. */
  lemma KeyOfDataFile(parse: Parser, path: string, k: string, x: string, content: Bytes, f: Format, data: Fields)
    requires forall j :: 0 <= j < |x| ==> x[j] != '.' && x[j] != Sep
    requires FormatOf(['.'] + x) == Some(f) && parse(f, content) == Some(data)
    ensures KeyOf(FileLoader(parse), path, File(k + ['.'] + x, Some(content))) == Some(k)
    ensures ValueOf(FileLoader(parse), path, File(k + ['.'] + x, Some(content))) == Obj(data)
  {
    ExtOfSuffix(k, x);
    PrefixOfSuffix(k, x);
    LoadFileByName(parse, path, k + ['.'] + x, Some(content));
  }

  /** A listing of one entry maps that entry's key to its value. */
  lemma SharedSingle(load: Loader, path: string, e: Entry, k: string, v: Value)
    requires KeyOf(load, path, e) == Some(k) && ValueOf(load, path, e) == v
    ensures LoadSharedDir(load, path, [e]) == map[k := v]
  {
    SharedSnoc(load, path, [], e);
    assert [] + [e] == [e];
  }

  /** A shared directory holding only `a.json` maps `a` to the file's data. */
  lemma JsonFileExample(parse: Parser, path: string, ca: Bytes, data: Fields)
    requires parse(Json, ca) == Some(data)
    ensures LoadSharedDir(FileLoader(parse), path, [File("a.json", Some(ca))]) == map["a" := Obj(data)]
  {
    var k, x := "a", "json";
    assert k + ['.'] + x == "a.json";
    assert ['.'] + x == ".json";
    assert FormatOf(".json") == Some(Json);
    KeyOfDataFile(parse, path, k, x, ca, Json, data);
    SharedSingle(FileLoader(parse), path, File("a.json", Some(ca)), k, Obj(data));
  }

  /** A shared directory holding only `c.yaml` maps `c` to the file's data. */
  lemma YamlFileExample(parse: Parser, path: string, cc: Bytes, data: Fields)
    requires parse(Yaml, cc) == Some(data)
    ensures LoadSharedDir(FileLoader(parse), path, [File("c.yaml", Some(cc))]) == map["c" := Obj(data)]
  {
    var k, x := "c", "yaml";
    assert k + ['.'] + x == "c.yaml";
    assert ['.'] + x == ".yaml";
    assert FormatOf(".yaml") == Some(Yaml);
    KeyOfDataFile(parse, path, k, x, cc, Yaml, data);
    SharedSingle(FileLoader(parse), path, File("c.yaml", Some(cc)), k, Obj(data));
  }

  /** Of two entries landing on the same key, the second one's value is kept. */
  lemma SharedPair(load: Loader, path: string, d: Entry, f: Entry, k: string)
    requires KeyOf(load, path, d) == Some(k) && KeyOf(load, path, f) == Some(k)
    ensures LoadSharedDir(load, path, [d, f]) == map[k := ValueOf(load, path, f)]
  {
    SharedSingle(load, path, d, k, ValueOf(load, path, d));
    SharedSnoc(load, path, [d], f);
    assert [d] + [f] == [d, f];
  }

  /** A subdirectory `b` followed by a file `b.json` in one listing: the file's data replaces the
      subdirectory's context under `b`. */
  lemma SubdirShadowedByFile(parse: Parser, path: string, cb: Bytes, data: Fields)
    requires parse(Json, cb) == Some(data)
    ensures LoadSharedDir(FileLoader(parse), path, [Dir("b", true, []), File("b.json", Some(cb))]) == map["b" := Obj(data)]
  {
    var k, x := "b", "json";
    assert k + ['.'] + x == "b.json";
    assert ['.'] + x == ".json";
    assert FormatOf(".json") == Some(Json);
    KeyOfDataFile(parse, path, k, x, cb, Json, data);
    SharedPair(FileLoader(parse), path, Dir(k, true, []), File(k + ['.'] + x, Some(cb)), k);
  }

  /** Two entries landing on two keys, in listing order. */
  lemma SharedTwo(load: Loader, path: string, a: Entry, b: Entry, ka: string, kb: string)
    requires KeyOf(load, path, a) == Some(ka) && KeyOf(load, path, b) == Some(kb)
    ensures LoadSharedDir(load, path, [a, b]) == map[ka := ValueOf(load, path, a), kb := ValueOf(load, path, b)]
  {
    SharedSingle(load, path, a, ka, ValueOf(load, path, a));
    SharedSnoc(load, path, [a], b);
    assert [a] + [b] == [a, b];
  }

  /** A file named `k.x` in the directory at `path` lands under `k` with the data the loader
      gives it. */
  lemma KeyOfLoadedFile(load: Loader, path: string, k: string, x: string, content: Bytes, data: Fields)
    requires forall j :: 0 <= j < |x| ==> x[j] != '.' && x[j] != Sep
    requires load(Join(path, k + ['.'] + x), Some(content)) == Some(data)
    ensures KeyOf(load, path, File(k + ['.'] + x, Some(content))) == Some(k)
    ensures ValueOf(load, path, File(k + ['.'] + x, Some(content))) == Obj(data)
  {
    PrefixOfSuffix(k, x);
  }

  /** A shared directory holding `a.json` with `{"x":1}` and `b/c.yaml` with `{"y":2}` yields
      `{"a": {"x":1}, "b": {"c": {"y":2}}}`. */
  lemma SharedExample(load: Loader, ca: Bytes, cc: Bytes)
    requires load(Join(SharedDir, "a.json"), Some(ca)) == Some(map["x" := Num(1)])
    requires load(Join(Join(SharedDir, "b"), "c.yaml"), Some(cc)) == Some(map["y" := Num(2)])
    ensures LoadSharedDir(load, SharedDir, [File("a.json", Some(ca)), Dir("b", true, [File("c.yaml", Some(cc))])])
      == map["a" := Obj(map["x" := Num(1)]), "b" := Obj(map["c" := Obj(map["y" := Num(2)])])]
  {
    var ka, xa, kc, xc := "a", "json", "c", "yaml";
    assert ka + ['.'] + xa == "a.json";
    assert kc + ['.'] + xc == "c.yaml";
    var pb := Join(SharedDir, "b");
    KeyOfLoadedFile(load, SharedDir, ka, xa, ca, map["x" := Num(1)]);
    KeyOfLoadedFile(load, pb, kc, xc, cc, map["y" := Num(2)]);
    var c := File(kc + ['.'] + xc, Some(cc));
    SharedSingle(load, pb, c, kc, Obj(map["y" := Num(2)]));
    var b := Dir("b", true, [c]);
    assert ValueOf(load, SharedDir, b) == Obj(map["c" := Obj(map["y" := Num(2)])]);
    SharedTwo(load, SharedDir, File(ka + ['.'] + xa, Some(ca)), b, ka, "b");
  }

  /** With an unreadable template root nothing is read and nothing is written. */
  lemma UnreadableTemplatesAbort(host: Host, outputPath: string, ws: Workspace)
    requires ws.templates.Some? && ws.templates.value.Dir? && !ws.templates.value.readable
    ensures Process(host, outputPath, ws) == Aborted(DirUnreadable(TemplatesDir))
  {
  }
}

=== FILE: paths.dfy ===
/** Lexical path operations of Go's `path/filepath` package as the page processor uses them,
    on a host whose only separator is '/' (so `filepath.ToSlash` is the identity). */
module Paths {

  /** The path separator. */
  const Sep: char := '/'

  /** `p` is `root` itself or a path inside it. */
  predicate Within(root: string, p: string)
  {
    p == root || (|p| > |root| && p[..|root|] == root && p[|root|] == Sep)
  }

  /** Index of the last separator in `s`, or -1 when there is none. */
  function LastSep(s: string): (k: int)
    ensures -1 <= k < |s|
    ensures k >= 0 ==> s[k] == Sep
    ensures forall j :: k < j < |s| ==> s[j] != Sep
  {
    if |s| == 0 then -1
    else if s[|s| - 1] == Sep then |s| - 1
    else LastSep(s[..|s| - 1])
  }

  /** `s` without its trailing separators. */
  function TrimTrailingSeps(s: string): (r: string)
    ensures |r| <= |s| && r == s[..|r|]
    ensures r == "" || r[|r| - 1] != Sep
    ensures forall j :: |r| <= j < |s| ==> s[j] == Sep
  {
    if |s| > 0 && s[|s| - 1] == Sep then TrimTrailingSeps(s[..|s| - 1]) else s
  }

  /** The scan of `filepath.Ext` over `p[..i]`, walking back from index `i`: the index of the
      last '.' met before a separator, or `|p|` when a separator or the start comes first. */
  function ExtStart(p: string, i: nat): (k: nat)
    requires i <= |p|
    ensures k == |p| || (k < i && p[k] == '.')
    decreases i
  {
    if i == 0 || p[i - 1] == Sep then |p|
    else if p[i - 1] == '.' then i - 1
    else ExtStart(p, i - 1)
  }

  /** The scan stops at the last '.' of the element it is in, and finds nothing only when every
      '.' before `i` is followed by a separator. */
  lemma {:induction false} ExtStartScan(p: string, i: nat)
    requires i <= |p|
    ensures var k := ExtStart(p, i);
      k < i ==> forall j :: k < j < i ==> p[j] != '.' && p[j] != Sep
    ensures ExtStart(p, i) == |p| ==>
      forall j :: 0 <= j < i && p[j] == '.' ==> exists m :: j < m < i && p[m] == Sep
    decreases i
  {
    if i > 0 && p[i - 1] != Sep && p[i - 1] != '.' {
      ExtStartScan(p, i - 1);
    }
  }

  /** `filepath.Ext`: the suffix of the last element of `p` that starts at its last '.',
      or "" when that element has no '.'. */
  function Ext(p: string): (e: string)
    ensures |e| <= |p| && e == p[|p| - |e|..]
    ensures e != "" ==> e[0] == '.'
  {
    p[ExtStart(p, |p|)..]
  }

  /** An extension holds no further '.' or separator, and there is none exactly when the last
      element of the path has no '.'. */
  lemma ExtShape(p: string)
    ensures var e := Ext(p);
      forall j :: 1 <= j < |e| ==> e[j] != '.' && e[j] != Sep
    ensures Ext(p) == "" ==>
      forall j :: 0 <= j < |p| && p[j] == '.' ==> exists m :: j < m < |p| && p[m] == Sep
  {
    ExtStartScan(p, |p|);
    var e := Ext(p);
    forall j | 1 <= j < |e|
      ensures e[j] != '.' && e[j] != Sep
    {
      assert e[j] == p[|p| - |e| + j];
    }
  }

  /** Walking back over `x` (which holds no '.' or separator) from the end of `q.x` finds the
      '.' in front of it. */
  lemma {:induction false} ExtStartOverSuffix(q: string, x: string, i: nat)
    requires i <= |x| && forall j :: 0 <= j < |x| ==> x[j] != '.' && x[j] != Sep
    ensures ExtStart(q + ['.'] + x, |q| + 1 + i) == |q|
    decreases i
  {
    var p := q + ['.'] + x;
    assert p[|q|] == '.';
    if i > 0 {
      assert p[|q| + i] == x[i - 1];
      ExtStartOverSuffix(q, x, i - 1);
    }
  }

  /** The extension of `q.x` is `.x` when `x` holds no '.' or separator. */
  lemma ExtOfSuffix(q: string, x: string)
    requires forall j :: 0 <= j < |x| ==> x[j] != '.' && x[j] != Sep
    ensures Ext(q + ['.'] + x) == ['.'] + x
  {
    ExtStartOverSuffix(q, x, |x|);
    assert (q + ['.'] + x)[|q|..] == ['.'] + x;
  }

  /** `prefix` (proccessor.go): a file name with its extension cut off. */
  function Prefix(name: string): (r: string)
    ensures r + Ext(name) == name
    ensures (forall j :: 0 <= j < |name| ==> name[j] != '.') ==> r == name
  {
    name[..|name| - |Ext(name)|]
  }

  /** `prefix` of `q.x` is `q` when `x` holds no '.' or separator. */
  lemma PrefixOfSuffix(q: string, x: string)
    requires forall j :: 0 <= j < |x| ==> x[j] != '.' && x[j] != Sep
    ensures Prefix(q + ['.'] + x) == q
  {
    ExtOfSuffix(q, x);
    assert (q + ['.'] + x)[..|q|] == q;
  }

  /** `filepath.Join` of two elements, without the lexical clean-up: an empty element is
      dropped, otherwise the two are separated by one separator. */
  function Join(a: string, b: string): string
  {
    if a == "" then b else if b == "" then a else a + [Sep] + b
  }

  /** The three facts that fix a join: it lies inside `a`, ends with `b`, and has room for
      exactly one separator between them when both are present. */
  lemma JoinShape(a: string, b: string)
    ensures var r := Join(a, b);
      && (a != "" ==> Within(a, r))
      && |b| <= |r| && r[|r| - |b|..] == b
      && |r| == |a| + |b| + (if a != "" && b != "" then 1 else 0)
  {
    var r := Join(a, b);
    if a != "" && b != "" {
      assert r[..|a|] == a;
      assert r[|r| - |b|..] == b;
    }
  }

  /** `filepath.Base`: the last element of `p` once trailing separators are removed; "." for
      the empty path and "/" for a path made of separators only. */
  function Base(p: string): (r: string)
    ensures r != ""
    ensures r == [Sep] || forall j :: 0 <= j < |r| ==> r[j] != Sep
  {
    if p == "" then "."
    else
      var t := TrimTrailingSeps(p);
      if t == "" then [Sep] else t[LastSep(t) + 1..]
  }

  /** `filepath.Dir`: everything before the last separator with trailing separators removed;
      "." when `p` has no separator and "/" when only separators precede the last element. */
  function ParentDir(p: string): (r: string)
    ensures (forall j :: 0 <= j < |p| ==> p[j] != Sep) ==> r == "."
    ensures (exists j :: 0 <= j < |p| && p[j] == Sep) ==>
      r == [Sep] || (0 < |r| < |p| && r == p[..|r|] && p[|r|] == Sep && r[|r| - 1] != Sep)
  {
    var k := LastSep(p);
    if k < 0 then "."
    else
      var t := TrimTrailingSeps(p[..k + 1]);
      if t == "" then [Sep] else t
  }

  /** The extension scan over `a/n` never leaves `n`: the separator in front of `n` stops it. */
  lemma {:induction false} ExtStartAfterSep(a: string, n: string, i: nat)
    requires i <= |n|
    ensures var p := a + [Sep] + n;
      ExtStart(p, |a| + 1 + i) == if ExtStart(n, i) == |n| then |p| else |a| + 1 + ExtStart(n, i)
    decreases i
  {
    var p := a + [Sep] + n;
    assert p[|a|] == Sep;
    if i > 0 {
      assert p[|a| + i] == n[i - 1];
      if n[i - 1] != Sep && n[i - 1] != '.' {
        ExtStartAfterSep(a, n, i - 1);
      }
    }
  }

  /** The extension of a path is the extension of whatever follows its last separator. */
  lemma ExtAfterSep(a: string, n: string)
    ensures Ext(a + [Sep] + n) == Ext(n)
  {
    var p := a + [Sep] + n;
    ExtStartAfterSep(a, n, |n|);
    var k := ExtStart(n, |n|);
    if k < |n| {
      assert p[|a| + 1 + k..] == n[k..];
    }
  }

  /** Joining a directory and a non-empty name keeps the name's extension. */
  lemma ExtOfJoin(a: string, n: string)
    requires n != ""
    ensures Ext(Join(a, n)) == Ext(n)
  {
    if a != "" {
      ExtAfterSep(a, n);
    }
  }

  /** A path inside a directory is still inside it after one more element is joined on. */
  lemma WithinJoin(root: string, p: string, n: string)
    requires Within(root, p)
    ensures root != "" ==> Within(root, Join(p, n))
  {
    if root != "" && p != "" && n != "" {
      var q := Join(p, n);
      assert q[..|p|] == p;
      assert q[..|root|] == q[..|p|][..|root|];
    }
  }

  /** The base name of `dir/name` is `name` when `name` is a single non-empty element. */
  lemma BaseOfJoin(a: string, n: string)
    requires n != "" && forall j :: 0 <= j < |n| ==> n[j] != Sep
    ensures Base(Join(a, n)) == n
  {
    var p := Join(a, n);
    assert p[|p| - 1] == n[|n| - 1];
    assert TrimTrailingSeps(p) == p;
    if a != "" {
      assert p[|a|] == Sep;
      assert p[|a| + 1..] == n;
      assert LastSep(p) == |a|;
    } else {
      assert LastSep(p) == -1;
    }
  }

  /** The parent of `dir/name` is `dir` when `name` is a single non-empty element and `dir`
      does not end in a separator. */
  lemma ParentDirOfJoin(a: string, n: string)
    requires a != "" && a[|a| - 1] != Sep
    requires n != "" && forall j :: 0 <= j < |n| ==> n[j] != Sep
    ensures ParentDir(Join(a, n)) == a
  {
    var p := Join(a, n);
    assert p[|a|] == Sep;
    assert LastSep(p) == |a|;
    assert p[..|a| + 1] == a + [Sep];
    assert TrimTrailingSeps(a + [Sep]) == TrimTrailingSeps(a);
  }
}

=== FILE: processor.dfy ===
/** `convertPath` and `Process` (proccessor.go): load the templates, give up if that fails,
    then load the shared context and walk the data directory rendering every file in it. */
module Processor {
  import opened Wrappers
  import opened Paths
  import opened Tree
  import opened Data
  import opened Templates
  import opened Shared
  import opened Render

  /** The data root, relative to the working directory. */
  const DataDir: string := "data"

  /** The effects of a walk so far, and whether it ended in a panic (which ends the process). */
  datatype Run = Run(effects: seq<Effect>, panicked: bool)

  /** Run `b` after `a`, unless `a` panicked. */
  function AndThen(a: Run, b: Run): Run
  {
    if a.panicked then a else Run(a.effects + b.effects, b.panicked)
  }

  /** The run of rendering one reached file. */
  function RenderOne(rd: Renderer, shared: map<string, Value>, f: FileRef): Run
  {
    var o := RenderFile(rd, shared, f.path, f.content);
    Run(o.Effects(), o.Panicked?)
  }

  /** How one reached file is rendered; the walk below is stated for any such function. */
  type PerFile = FileRef -> Run

  /** Page rendering as a `PerFile`. */
  function Pages(rd: Renderer, shared: map<string, Value>): PerFile
  {
    f => RenderOne(rd, shared, f)
  }

  /** Rendering a flat sequence of reached files in order until one panics; the reference the
      directory walk is measured against. */
  function RenderAll(one: PerFile, fs: seq<FileRef>): Run
    decreases |fs|
  {
    if |fs| == 0 then Run([], false)
    else AndThen(RenderAll(one, fs[..|fs| - 1]), one(fs[|fs| - 1]))
  }

  /** Rendering a concatenation is rendering its parts one after the other. */
  lemma {:induction false} RenderAllAppend(one: PerFile, a: seq<FileRef>, b: seq<FileRef>)
    ensures RenderAll(one, a + b) == AndThen(RenderAll(one, a), RenderAll(one, b))
    decreases |b|
  {
    if |b| == 0 {
      assert a + b == a;
      assert RenderAll(one, a).effects + [] == RenderAll(one, a).effects;
    } else {
      var b' := b[..|b| - 1];
      assert (a + b)[..|a + b| - 1] == a + b';
      assert (a + b)[|a + b| - 1] == b[|b| - 1];
      RenderAllAppend(one, a, b');
      var x := RenderAll(one, a);
      var y := RenderAll(one, b');
      var z := one(b[|b| - 1]);
      if !x.panicked && !y.panicked {
        assert (x.effects + y.effects) + z.effects == x.effects + (y.effects + z.effects);
      }
    }
  }

  /** A walk panics exactly when one of its files does, and every effect of the walk is an
      effect of rendering one of its files. */
  lemma {:induction false} RenderAllEffects(one: PerFile, fs: seq<FileRef>)
    ensures RenderAll(one, fs).panicked <==> exists i :: 0 <= i < |fs| && one(fs[i]).panicked
    ensures forall k :: 0 <= k < |RenderAll(one, fs).effects| ==>
      exists i :: 0 <= i < |fs| && RenderAll(one, fs).effects[k] in one(fs[i]).effects
    decreases |fs|
  {
    if |fs| > 0 {
      var pre := fs[..|fs| - 1];
      var f := fs[|fs| - 1];
      RenderAllEffects(one, pre);
      assert forall i :: 0 <= i < |pre| ==> pre[i] == fs[i];
      var x := RenderAll(one, pre);
      var r := RenderAll(one, fs);
      forall k | 0 <= k < |r.effects|
        ensures exists i :: 0 <= i < |fs| && r.effects[k] in one(fs[i]).effects
      {
        if k < |x.effects| {
          var i :| 0 <= i < |pre| && x.effects[k] in one(pre[i]).effects;
          assert r.effects[k] == x.effects[k];
        } else {
          assert r.effects[k] in one(f).effects;
        }
      }
    }
  }

  /** The walk stops at the first panic: everything before it has been rendered and nothing
      after it. */
  lemma {:induction false} RenderAllStopsAtPanic(one: PerFile, fs: seq<FileRef>, i: nat)
    requires i < |fs| && one(fs[i]).panicked
    requires forall j :: 0 <= j < i ==> !one(fs[j]).panicked
    ensures RenderAll(one, fs) == AndThen(RenderAll(one, fs[..i]), one(fs[i]))
    ensures RenderAll(one, fs).panicked
  {
    var a := fs[..i + 1];
    var b := fs[i + 1..];
    assert fs == a + b;
    assert a[..i] == fs[..i];
    RenderAllAppend(one, a, b);
  }

  /** `convertPath` over the listing `cs` of the readable directory at `path`: directories are
      walked into, every other entry is rendered, and a panic ends the walk. The walk renders
      every reachable non-directory exactly once, in walk order. */
  function ConvertDir(one: PerFile, path: string, cs: seq<Entry>): (r: Run)
    ensures r == RenderAll(one, Files(path, cs))
    decreases cs
  {
    if |cs| == 0 then Run([], false)
    else
      var before := ConvertDir(one, path, cs[..|cs| - 1]);
      RenderAllAppend(one, Files(path, cs[..|cs| - 1]), FilesOf(path, cs[|cs| - 1]));
      if before.panicked then before
      else
        match cs[|cs| - 1]
        case Dir(n, readable, sub) =>
          AndThen(before, if readable then ConvertDir(one, Join(path, n), sub) else Run([], false))
        case File(n, content) =>
          assert FilesOf(path, cs[|cs| - 1])[..0] == [];
          AndThen(before, one(FileRef(Join(path, n), content)))
  }

  /** `convertPath` from the data root: a root that is missing or cannot be listed does
      nothing; otherwise every reachable file is rendered once, in walk order. */
  function ConvertPath(one: PerFile, root: Option<Entry>): (r: Run)
    ensures r == RenderAll(one, RootFiles(DataDir, root))
    ensures RootFiles(DataDir, root) == [] ==> r == Run([], false)
  {
    match root
    case Some(Dir(_, true, cs)) => ConvertDir(one, DataDir, cs)
    case _ => Run([], false)
  }

  /** The external capabilities the processor depends on: the three parsers, the template
      engine's compiler and executor, and directory creation. */
  datatype Host = Host(
    parse: Parser,
    compiles: Compiler,
    exec: Executor,
    mkdirOk: string -> bool)

  /** The three roots the processor reads from the working directory; `None` where the path
      does not exist. */
  datatype Workspace = Workspace(templates: Option<Entry>, shared: Option<Entry>, data: Option<Entry>)

  /** How a run of the processor ends. */
  datatype Report = Aborted(error: LoadError) | Completed(run: Run)

  /** `Process`: templates first; when they fail, nothing else is read and nothing is written.
      Otherwise the shared context is loaded and the data walk renders against it. */
  function Process(host: Host, outputPath: string, ws: Workspace): (r: Report)
    ensures r.Aborted? <==> LoadTemplates(host.compiles, ws.templates).Failure?
    ensures r.Aborted? ==> r.error == LoadTemplates(host.compiles, ws.templates).error
    ensures r.Completed? ==>
      var rd := Renderer(outputPath, LoadTemplates(host.compiles, ws.templates).value, host.parse, host.exec, host.mkdirOk);
      r.run == RenderAll(Pages(rd, LoadShared(host.parse, ws.shared)), RootFiles(DataDir, ws.data))
  {
    match LoadTemplates(host.compiles, ws.templates)
    case Failure(err) => Aborted(err)
    case Success(templates) =>
      var shared := LoadShared(host.parse, ws.shared);
      var rd := Renderer(outputPath, templates, host.parse, host.exec, host.mkdirOk);
      Completed(ConvertPath(Pages(rd, shared), ws.data))
  }

  /** A template failure makes the run independent of the shared and data directories. */
  lemma AbortIgnoresSharedAndData(host: Host, outputPath: string, ws: Workspace, shared: Option<Entry>, data: Option<Entry>)
    requires LoadTemplates(host.compiles, ws.templates).Failure?
    ensures Process(host, outputPath, ws.(shared := shared, data := data)) == Process(host, outputPath, ws)
  {
  }

  /** A page calls `WriteFile` only at its own destination, and only with a loaded template. */
  lemma WriteComesFromPage(rd: Renderer, shared: map<string, Value>, f: FileRef, e: Effect)
    requires e in RenderOne(rd, shared, f).effects && e.WriteFile?
    ensures var p := PagePlan(rd.parse, f.path, f.content);
      && p.Some?
      && p.value.template in rd.templates
      && Destination(rd.outputPath, p.value.output) == Some(e.path)
  {
    var o := RenderFile(rd, shared, f.path, f.content);
    assert o.Written?;
  }

  /** Every `WriteFile` call of a run comes from a reached page whose `_page.template` names a
      loaded template, and is made at that page's destination. */
  lemma WritesComeFromPages(host: Host, outputPath: string, ws: Workspace, e: Effect)
    requires Process(host, outputPath, ws).Completed?
    requires e in Process(host, outputPath, ws).run.effects && e.WriteFile?
    ensures var fs := RootFiles(DataDir, ws.data);
      exists i :: 0 <= i < |fs| &&
        var p := PagePlan(host.parse, fs[i].path, fs[i].content);
        && p.Some?
        && p.value.template in LoadTemplates(host.compiles, ws.templates).value
        && Destination(outputPath, p.value.output) == Some(e.path)
  {
    var templates := LoadTemplates(host.compiles, ws.templates).value;
    var rd := Renderer(outputPath, templates, host.parse, host.exec, host.mkdirOk);
    var one := Pages(rd, LoadShared(host.parse, ws.shared));
    var fs := RootFiles(DataDir, ws.data);
    var effects := RenderAll(one, fs).effects;
    var k :| 0 <= k < |effects| && effects[k] == e;
    RenderAllEffects(one, fs);
    var i :| 0 <= i < |fs| && e in one(fs[i]).effects;
    WriteComesFromPage(rd, LoadShared(host.parse, ws.shared), fs[i], e);
  }
}

=== FILE: render.dfy ===
/** `renderFile` (proccessor.go): decide what one data file turns into. A file without data,
    without a `_page` mapping or without a string `_page.template` is skipped; otherwise the
    destination's directories are created, the template is looked up and executed, and the
    result is handed to `ioutil.WriteFile`. An empty `_page.output` string makes the Go code
    index past the end of the string, which panics. */
module Render {
  import opened Wrappers
  import opened Paths
  import opened Tree
  import opened Data
  import opened Templates

  /** The template engine's execution: render the template `source`, with the registry's
      templates available as partials, against `data`; `None` when execution fails. */
  type Executor = (Registry, Bytes, Value) -> Option<Bytes>

  /** Everything a page render depends on besides the file itself. `mkdirOk` says whether
      creating a directory (with its parents) succeeds. */
  datatype Renderer = Renderer(
    outputPath: string,
    templates: Registry,
    parse: Parser,
    exec: Executor,
    mkdirOk: string -> bool)

  /** What a render asks of the file system: `MkdirAll` is the call to `os.MkdirAll` for a
      directory, recorded whether or not it succeeds; `WriteFile` is the call to
      `ioutil.WriteFile`, likewise recorded whether or not it succeeds. */
  datatype Effect = MkdirAll(dir: string) | WriteFile(path: string, content: Bytes)

  /** Why a file is not a page. */
  datatype Skip = NoData | NoPage | NoTemplateName

  /** Why a page stopped after its directories were attempted. */
  datatype Stop = MkdirFailed | TemplateMissing | ExecFailed

  /** What happened to one data file. `Written` means that `ioutil.WriteFile` was called with the
      executed template, not that the write succeeded. */
  datatype Outcome =
    | Skipped(skip: Skip)
    | Stopped(dir: string, stop: Stop)
    | Written(dir: string, path: string, content: Bytes)
    | Panicked
  {
    /** The effects of the outcome, in the order they happen. */
    function Effects(): seq<Effect>
    {
      match this
      case Skipped(_) => []
      case Panicked => []
      case Stopped(dir, _) => [MkdirAll(dir)]
      case Written(dir, path, content) => [MkdirAll(dir), WriteFile(path, content)]
    }
  }

  /** A data file that qualifies as a page: its data, its template name and its output name. */
  datatype Plan = Plan(data: Fields, template: string, output: string)

  /** The string under `key`, when there is one. */
  function StringField(m: Fields, key: string): Option<string>
  {
    if key in m && m[key].Str? then Some(m[key].s) else None
  }

  /** The page checks of `renderFile`: the file must yield data, `_page` must be a string-keyed
      mapping and `_page.template` a string; the output name is `_page.output` when that is a
      string and the source file's base name otherwise. */
  function PagePlan(parse: Parser, file: string, content: Option<Bytes>): (p: Option<Plan>)
    ensures LoadFile(parse, file, content).None? ==> p.None?
    ensures var d := LoadFile(parse, file, content);
      d.Some? && !("_page" in d.value && d.value["_page"].Obj?) ==> p.None?
    ensures var d := LoadFile(parse, file, content);
      (d.Some? && "_page" in d.value && d.value["_page"].Obj? &&
       StringField(d.value["_page"].fields, "template").None?) ==> p.None?
    ensures p.Some? ==>
      && LoadFile(parse, file, content) == Some(p.value.data)
      && "_page" in p.value.data && p.value.data["_page"].Obj?
      && var page := p.value.data["_page"].fields;
      && "template" in page && page["template"] == Str(p.value.template)
      && ("output" in page && page["output"].Str? ==> p.value.output == page["output"].s)
      && (!("output" in page && page["output"].Str?) ==> p.value.output == Base(file))
    ensures var d := LoadFile(parse, file, content);
      (d.Some? && "_page" in d.value && d.value["_page"].Obj? &&
       StringField(d.value["_page"].fields, "template").Some?) ==> p.Some?
  {
    match LoadFile(parse, file, content)
    case None => None
    case Some(data) =>
      if !("_page" in data && data["_page"].Obj?) then None
      else
        var page := data["_page"].fields;
        match StringField(page, "template")
        case None => None
        case Some(name) =>
          var output := match StringField(page, "output") case Some(o) => o case None => Base(file);
          Some(Plan(data, name, output))
  }

  /** The destination of an output name under the output root: one leading separator is
      dropped. `None` stands for the panic on an empty name. */
  function Destination(outputPath: string, output: string): (d: Option<string>)
    ensures d.None? <==> output == ""
    ensures d.Some? && output[0] != Sep ==> d.value == Join(outputPath, output)
    ensures d.Some? && output[0] == Sep ==> d.value == Join(outputPath, output[1..])
  {
    if output == "" then None
    else if output[0] == Sep then Some(Join(outputPath, output[1..]))
    else Some(Join(outputPath, output))
  }

  /** The value a template is executed against: the page's data with the shared context
      stored under `_shared`. */
  function PageValue(data: Fields, shared: map<string, Value>): (v: Value)
    ensures v.Obj? && v.fields.Keys == data.Keys + {"_shared"}
    ensures v.fields["_shared"] == Obj(shared)
    ensures forall k :: k in data && k != "_shared" ==> v.fields[k] == data[k]
  {
    Obj(data["_shared" := Obj(shared)])
  }

  /** `renderFile`. */
  function RenderFile(rd: Renderer, shared: map<string, Value>, file: string, content: Option<Bytes>): (o: Outcome)
    ensures o.Skipped? <==> PagePlan(rd.parse, file, content).None?
    ensures o.Panicked? <==> PagePlan(rd.parse, file, content).Some? && PagePlan(rd.parse, file, content).value.output == ""
    ensures o.Effects() == [] <==> o.Skipped? || o.Panicked?
    ensures o.Effects() != [] ==>
      var p := PagePlan(rd.parse, file, content).value;
      var dest := Destination(rd.outputPath, p.output).value;
      o.Effects()[0] == MkdirAll(ParentDir(dest))
    ensures o.Written? <==>
      && PagePlan(rd.parse, file, content).Some?
      && var p := PagePlan(rd.parse, file, content).value;
      && Destination(rd.outputPath, p.output).Some?
      && rd.mkdirOk(ParentDir(Destination(rd.outputPath, p.output).value))
      && p.template in rd.templates
      && rd.exec(rd.templates, rd.templates[p.template], PageValue(p.data, shared)).Some?
    ensures o.Written? ==>
      var p := PagePlan(rd.parse, file, content).value;
      && o.path == Destination(rd.outputPath, p.output).value
      && o.Effects() == [MkdirAll(ParentDir(o.path)), WriteFile(o.path, o.content)]
      && Some(o.content) == rd.exec(rd.templates, rd.templates[p.template], PageValue(p.data, shared))
  {
    match PagePlan(rd.parse, file, content)
    case None =>
      var d := LoadFile(rd.parse, file, content);
      if d.None? then Skipped(NoData)
      else if !("_page" in d.value && d.value["_page"].Obj?) then Skipped(NoPage)
      else Skipped(NoTemplateName)
    case Some(p) =>
      match Destination(rd.outputPath, p.output)
      case None => Panicked
      case Some(dest) =>
        var dir := ParentDir(dest);
        if !rd.mkdirOk(dir) then Stopped(dir, MkdirFailed)
        else if p.template !in rd.templates then Stopped(dir, TemplateMissing)
        else
          match rd.exec(rd.templates, rd.templates[p.template], PageValue(p.data, shared))
          case None => Stopped(dir, ExecFailed)
          case Some(result) => Written(dir, dest, result)
  }

  /** A missing template leaves the created directories behind but writes nothing. */
  lemma MissingTemplateOnlyCreatesDirs(rd: Renderer, shared: map<string, Value>, file: string, content: Option<Bytes>)
    requires PagePlan(rd.parse, file, content).Some?
    requires var p := PagePlan(rd.parse, file, content).value;
      p.output != "" && rd.mkdirOk(ParentDir(Destination(rd.outputPath, p.output).value)) && p.template !in rd.templates
    ensures var p := PagePlan(rd.parse, file, content).value;
      RenderFile(rd, shared, file, content).Effects() == [MkdirAll(ParentDir(Destination(rd.outputPath, p.output).value))]
  {
  }

  /** A page whose data names a loaded template and a non-empty output has `WriteFile` called at its
      destination once the directories are created and the template executes. */
  lemma ValidPageIsWritten(rd: Renderer, shared: map<string, Value>, file: string, content: Option<Bytes>, data: Fields, name: string, result: Bytes)
    requires LoadFile(rd.parse, file, content) == Some(data)
    requires "_page" in data && data["_page"].Obj? && StringField(data["_page"].fields, "template") == Some(name)
    requires name in rd.templates
    requires PagePlan(rd.parse, file, content).value.output != ""
    requires var dest := Destination(rd.outputPath, PagePlan(rd.parse, file, content).value.output).value;
      rd.mkdirOk(ParentDir(dest))
    requires rd.exec(rd.templates, rd.templates[name], PageValue(data, shared)) == Some(result)
    ensures var o := RenderFile(rd, shared, file, content);
      var dest := Destination(rd.outputPath, PagePlan(rd.parse, file, content).value.output).value;
      && o == Written(ParentDir(dest), dest, result)
      && o.Effects() == [MkdirAll(ParentDir(dest)), WriteFile(dest, result)]
  {
  }

  /** A leading separator is ignored: `/x` lands where `x` does. */
  lemma DestinationIgnoresLeadingSep(outputPath: string, x: string)
    requires x != "" && x[0] != Sep
    ensures Destination(outputPath, [Sep] + x) == Destination(outputPath, x) == Some(Join(outputPath, x))
  {
    assert ([Sep] + x)[1..] == x;
  }

  /** `file` is a page without a string `_page.output`, so its output name falls back. */
  predicate FallsBack(parse: Parser, file: string, content: Option<Bytes>)
  {
    var p := PagePlan(parse, file, content);
    p.Some? && StringField(p.value.data["_page"].fields, "output").None?
  }

  /** Without `_page.output` the output name is the source file's own name, extension included,
      so the render never panics. */
  lemma FallbackIsSourceName(parse: Parser, dir: string, name: string, content: Option<Bytes>)
    requires name != "" && forall j :: 0 <= j < |name| ==> name[j] != Sep
    requires FallsBack(parse, Join(dir, name), content)
    ensures PagePlan(parse, Join(dir, name), content).value.output == name
  {
    BaseOfJoin(dir, name);
  }

  /** Two pages with the same file name in different directories and no `_page.output` are
      written, if at all, to the same destination directly under the output root (`Written`
      means that `WriteFile` was called). */
  lemma FallbackCollision(rd: Renderer, shared: map<string, Value>, dir1: string, dir2: string, name: string,
                          c1: Option<Bytes>, c2: Option<Bytes>)
    requires name != "" && forall j :: 0 <= j < |name| ==> name[j] != Sep
    ensures var o1 := RenderFile(rd, shared, Join(dir1, name), c1);
      var o2 := RenderFile(rd, shared, Join(dir2, name), c2);
      (FallsBack(rd.parse, Join(dir1, name), c1) && FallsBack(rd.parse, Join(dir2, name), c2) &&
       o1.Written? && o2.Written?) ==> o1.path == o2.path == Join(rd.outputPath, name)
  {
    if FallsBack(rd.parse, Join(dir1, name), c1) && FallsBack(rd.parse, Join(dir2, name), c2) {
      FallbackIsSourceName(rd.parse, dir1, name, c1);
      FallbackIsSourceName(rd.parse, dir2, name, c2);
    }
  }
}

=== FILE: shared.dfy ===
/** `loadShared` (proccessor.go): fold a directory into a nested string-keyed mapping. A
    subdirectory becomes its own mapping under its name, a file that yields data becomes that
    data under its prefix, and a later entry with the same key replaces an earlier one. */
module Shared {
  import opened Wrappers
  import opened Paths
  import opened Tree
  import opened Data

  /** The shared-data root, relative to the working directory. */
  const SharedDir: string := "shared"

  /** How the data of a file is loaded from its path and content; the fold below is stated for
      any such function. */
  type Loader = (string, Option<Bytes>) -> Option<Fields>

  /** `loadFile` with the parsers fixed, as a `Loader`. */
  function FileLoader(parse: Parser): Loader
  {
    (file, content) => LoadFile(parse, file, content)
  }

  /** The key under which the entry `e` of the directory at `path` lands, if it lands at all. */
  function KeyOf(load: Loader, path: string, e: Entry): (k: Option<string>)
    ensures e.Dir? ==> k == Some(e.name)
    ensures e.File? ==> (k.Some? <==> load(Join(path, e.name), e.content).Some?)
  {
    match e
    case Dir(n, _, _) => Some(n)
    case File(n, content) =>
      if load(Join(path, n), content).Some? then Some(Prefix(n)) else None
  }

  /** The value the entry `e` of the directory at `path` contributes. A directory that cannot be
      listed still contributes, as an empty mapping. */
  function ValueOf(load: Loader, path: string, e: Entry): (v: Value)
    requires KeyOf(load, path, e).Some?
    ensures v.Obj?
    ensures e.File? ==> load(Join(path, e.name), e.content) == Some(v.fields)
    ensures e.Dir? && !e.readable ==> v.fields == map[]
    decreases e, 1
  {
    match e
    case Dir(n, readable, sub) =>
      Obj(if readable then LoadSharedDir(load, Join(path, n), sub) else map[])
    case File(n, content) =>
      Obj(load(Join(path, n), content).value)
  }

  /** The loop of `loadShared` over the listing `cs` of the readable directory at `path`. */
  function LoadSharedDir(load: Loader, path: string, cs: seq<Entry>): (r: map<string, Value>)
    ensures forall k :: k in r ==> r[k].Obj?
    decreases cs, 0
  {
    if |cs| == 0 then map[]
    else
      var m := LoadSharedDir(load, path, cs[..|cs| - 1]);
      var e := cs[|cs| - 1];
      match KeyOf(load, path, e)
      case None => m
      case Some(k) => m[k := ValueOf(load, path, e)]
  }

  /** `loadShared` from the shared root: a root that is missing or cannot be listed gives an
      empty mapping. */
  function LoadShared(parse: Parser, root: Option<Entry>): (r: map<string, Value>)
    ensures !(root.Some? && root.value.Dir? && root.value.readable) ==> r == map[]
  {
    match root
    case Some(Dir(_, true, cs)) => LoadSharedDir(FileLoader(parse), SharedDir, cs)
    case _ => map[]
  }

  /** Some entry of `cs` lands under `k`. */
  ghost predicate Provides(load: Loader, path: string, cs: seq<Entry>, k: string)
  {
    exists i :: 0 <= i < |cs| && KeyOf(load, path, cs[i]) == Some(k)
  }

  /** No entry after index `i` lands under the key of entry `i`. */
  ghost predicate LastWithKey(load: Loader, path: string, cs: seq<Entry>, i: nat)
    requires i < |cs|
  {
    forall j :: i < j < |cs| ==> KeyOf(load, path, cs[j]) != KeyOf(load, path, cs[i])
  }

  /** A listing provides a key exactly when its prefix without the last entry does, or the
      last entry lands there. */
  lemma ProvidesSnoc(load: Loader, path: string, cs: seq<Entry>)
    requires |cs| > 0
    ensures forall k :: Provides(load, path, cs, k) <==>
      Provides(load, path, cs[..|cs| - 1], k) || KeyOf(load, path, cs[|cs| - 1]) == Some(k)
  {
    var pre := cs[..|cs| - 1];
    forall k
      ensures Provides(load, path, cs, k) <==>
        Provides(load, path, pre, k) || KeyOf(load, path, cs[|cs| - 1]) == Some(k)
    {
      if Provides(load, path, pre, k) {
        var i :| 0 <= i < |pre| && KeyOf(load, path, pre[i]) == Some(k);
        assert cs[i] == pre[i];
      }
      if Provides(load, path, cs, k) {
        var i :| 0 <= i < |cs| && KeyOf(load, path, cs[i]) == Some(k);
        if i < |pre| {
          assert pre[i] == cs[i];
        }
      }
    }
  }

  /** The keys of a directory's mapping are exactly the keys its entries land under. */
  lemma {:induction false} SharedKeys(load: Loader, path: string, cs: seq<Entry>)
    ensures forall k :: k in LoadSharedDir(load, path, cs) <==> Provides(load, path, cs, k)
    decreases |cs|
  {
    if |cs| > 0 {
      SharedKeys(load, path, cs[..|cs| - 1]);
      ProvidesSnoc(load, path, cs);
    }
  }

  /** Under each key sits the value of the last entry landing there. */
  lemma {:induction false} SharedLastWins(load: Loader, path: string, cs: seq<Entry>, i: nat)
    requires i < |cs| && KeyOf(load, path, cs[i]).Some? && LastWithKey(load, path, cs, i)
    ensures KeyOf(load, path, cs[i]).value in LoadSharedDir(load, path, cs)
    ensures LoadSharedDir(load, path, cs)[KeyOf(load, path, cs[i]).value] == ValueOf(load, path, cs[i])
    decreases |cs|
  {
    var pre := cs[..|cs| - 1];
    var e := cs[|cs| - 1];
    if i < |pre| {
      assert pre[i] == cs[i];
      assert KeyOf(load, path, e) != KeyOf(load, path, cs[i]);
      assert LastWithKey(load, path, pre, i) by {
        forall j | i < j < |pre|
          ensures KeyOf(load, path, pre[j]) != KeyOf(load, path, pre[i])
        {
          assert pre[j] == cs[j];
        }
      }
      SharedLastWins(load, path, pre, i);
    }
  }

  /** A subdirectory maps to its own context under its exact name, unless a later entry lands
      on the same name. */
  lemma SharedSubdir(load: Loader, path: string, cs: seq<Entry>, i: nat)
    requires i < |cs| && cs[i].Dir? && LastWithKey(load, path, cs, i)
    ensures var m := LoadSharedDir(load, path, cs); var d := cs[i];
      d.name in m && m[d.name] == Obj(if d.readable then LoadSharedDir(load, Join(path, d.name), d.children) else map[])
  {
    SharedLastWins(load, path, cs, i);
  }

  /** A file that yields data maps to that data under its prefix, unless a later entry lands on
      the same key. */
  lemma SharedFile(load: Loader, path: string, cs: seq<Entry>, i: nat, data: Fields)
    requires i < |cs| && cs[i].File?
    requires load(Join(path, cs[i].name), cs[i].content) == Some(data)
    requires LastWithKey(load, path, cs, i)
    ensures var m := LoadSharedDir(load, path, cs);
      Prefix(cs[i].name) in m && m[Prefix(cs[i].name)] == Obj(data)
  {
    SharedLastWins(load, path, cs, i);
  }

  /** The fold over a listing with one more entry at the end. */
  lemma SharedSnoc(load: Loader, path: string, cs: seq<Entry>, e: Entry)
    ensures LoadSharedDir(load, path, cs + [e]) ==
      match KeyOf(load, path, e)
      case None => LoadSharedDir(load, path, cs)
      case Some(k) => LoadSharedDir(load, path, cs)[k := ValueOf(load, path, e)]
  {
    assert (cs + [e])[..|cs + [e]| - 1] == cs;
  }

  /** A file that yields no data changes nothing: the mapping is the one of the listing
      without it. */
  lemma {:induction false} SharedSkipsNoData(load: Loader, path: string, a: seq<Entry>, e: Entry, b: seq<Entry>)
    requires e.File? && load(Join(path, e.name), e.content).None?
    ensures LoadSharedDir(load, path, a + [e] + b) == LoadSharedDir(load, path, a + b)
    decreases |b|
  {
    if |b| == 0 {
      assert a + [e] + b == a + [e];
      assert a + b == a;
      SharedSnoc(load, path, a, e);
    } else {
      var b' := b[..|b| - 1];
      var x := b[|b| - 1];
      SharedSkipsNoData(load, path, a, e, b');
      assert a + [e] + b == (a + [e] + b') + [x];
      assert a + b == (a + b') + [x];
      SharedSnoc(load, path, a + [e] + b', x);
      SharedSnoc(load, path, a + b', x);
    }
  }
}

=== FILE: templates.dfy ===
/** `loadTemplates` (proccessor.go): walk `.processor/templates` and register every
    non-directory with extension `.hbs` under its relative path without the extension. Any
    unreadable directory, unreadable template or template that does not compile aborts the load. */
module Templates {
  import opened Wrappers
  import opened Paths
  import opened Tree

  /** The template root, relative to the working directory. */
  const TemplatesDir: string := ".processor/templates"

  /** The extension that marks a template. */
  const TemplateExt: string := ".hbs"

  /** The compiled templates by name. A compiled template is represented by its source; the
      template engine works on that source (see `Render.Executor`). */
  type Registry = map<string, Bytes>

  /** The template engine's parser: whether a source compiles. */
  type Compiler = Bytes -> bool

  /** Why loading the templates stopped. */
  datatype LoadError =
    | RootMissing
    | DirUnreadable(path: string)
    | ReadFailed(path: string)
    | ParseFailed(path: string)

  /** The walk hands a path under the root with extension `.hbs` to the registration. */
  predicate IsTemplatePath(p: string)
  {
    Within(TemplatesDir, p) && Ext(p) == TemplateExt
  }

  /** A template path lies strictly below the template root: the root itself has no extension. */
  lemma TemplatePathBelowRoot(p: string)
    requires IsTemplatePath(p)
    ensures |p| - |TemplateExt| > |TemplatesDir| && p[..|TemplatesDir| + 1] == TemplatesDir + [Sep]
  {
    if p == TemplatesDir {
      assert false;
    }
    var e := Ext(p);
    ExtShape(p);
    assert p[|TemplatesDir|] == Sep;
    if |p| - |e| <= |TemplatesDir| {
      assert false;
    }
  }

  /** The template name of a path (the slice in `loadTemplates`): the path relative to the
      template root with the `.hbs` extension removed. */
  function TemplateName(p: string): (name: string)
    requires IsTemplatePath(p)
    ensures |p| > |TemplatesDir| && name + TemplateExt == p[|TemplatesDir| + 1..]
    ensures p == TemplatesDir + [Sep] + name + TemplateExt
  {
    TemplatePathBelowRoot(p);
    p[|TemplatesDir| + 1 .. |p| - |Ext(p)|]
  }

  /** The name a reached file is registered under: its template name when it is a `.hbs` file
      below the template root, nothing otherwise. */
  function TemplateKey(f: FileRef): (k: Option<string>)
    ensures Within(TemplatesDir, f.path) ==> (k.Some? <==> Ext(f.path) == TemplateExt)
    ensures k.Some? ==> f.path == TemplatesDir + [Sep] + k.value + TemplateExt
  {
    if IsTemplatePath(f.path) then Some(TemplateName(f.path)) else None
  }

  /** A string framed by the same prefix and suffix is determined by the frame. */
  lemma FramedEqual(a: string, x: string, y: string, b: string)
    requires a + x + b == a + y + b
    ensures x == y
  {
    assert |x| == |y|;
    assert x == (a + x + b)[|a|..|a| + |x|];
    assert y == (a + y + b)[|a|..|a| + |y|];
  }

  /** `name.hbs` below the template root is a template path. */
  lemma TemplatePathOfName(name: string)
    ensures IsTemplatePath(TemplatesDir + [Sep] + name + TemplateExt)
  {
    var q := TemplatesDir + [Sep] + name;
    var p := q + TemplateExt;
    assert TemplateExt == ['.'] + "hbs";
    assert p == q + ['.'] + "hbs";
    ExtOfSuffix(q, "hbs");
    assert p[..|TemplatesDir|] == TemplatesDir;
    assert p[|TemplatesDir|] == Sep;
  }

  /** The inverse of `TemplateName`: the file `name.hbs` below the template root is registered
      under `name`, whatever directories `name` runs through. */
  lemma TemplateKeyOfName(name: string, c: Option<Bytes>)
    ensures TemplateKey(FileRef(TemplatesDir + [Sep] + name + TemplateExt, c)) == Some(name)
  {
    var p := TemplatesDir + [Sep] + name + TemplateExt;
    TemplatePathOfName(name);
    var k := TemplateName(p);
    FramedEqual(TemplatesDir + [Sep], k, name, TemplateExt);
  }

  /** Which reached files are templates, and under which name. */
  type Naming = FileRef -> Option<string>

  /** Registration of one reached file: a template is read, compiled and stored under its
      name; any other file is passed over. */
  function Register(name: Naming, compiles: Compiler, m: Registry, f: FileRef): (r: Result<Registry, LoadError>)
    ensures r.Success? <==> (name(f).Some? ==> f.content.Some? && compiles(f.content.value))
    ensures r.Failure? ==> r.error in {ReadFailed(f.path), ParseFailed(f.path)}
    ensures r.Success? ==> r.value.Keys == m.Keys + (if name(f).Some? then {name(f).value} else {})
    ensures r.Success? && name(f).Some? ==> r.value[name(f).value] == f.content.value
    ensures r.Success? ==> forall k :: k in m && Some(k) != name(f) ==> r.value[k] == m[k]
  {
    match name(f)
    case None => Success(m)
    case Some(k) =>
      if f.content.None? then Failure(ReadFailed(f.path))
      else if !compiles(f.content.value) then Failure(ParseFailed(f.path))
      else Success(m[k := f.content.value])
  }

  /** Continue a load that has reached `r` with the file `f`. */
  function Step(name: Naming, compiles: Compiler, r: Result<Registry, LoadError>, f: FileRef): Result<Registry, LoadError>
  {
    match r
    case Failure(err) => Failure(err)
    case Success(m) => Register(name, compiles, m, f)
  }

  /** Registration of a flat sequence of reached files in order, stopping at the first error;
      the reference the directory walk is measured against. */
  function RegisterAll(name: Naming, compiles: Compiler, fs: seq<FileRef>): Result<Registry, LoadError>
    decreases |fs|
  {
    if |fs| == 0 then Success(map[])
    else Step(name, compiles, RegisterAll(name, compiles, fs[..|fs| - 1]), fs[|fs| - 1])
  }

  /** Every template in `fs` can be read and compiles. */
  ghost predicate AllCompile(name: Naming, compiles: Compiler, fs: seq<FileRef>)
  {
    forall i :: 0 <= i < |fs| && name(fs[i]).Some? ==> fs[i].content.Some? && compiles(fs[i].content.value)
  }

  /** Some template in `fs` has the name `k`. */
  ghost predicate Named(name: Naming, fs: seq<FileRef>, k: string)
  {
    exists i :: 0 <= i < |fs| && name(fs[i]) == Some(k)
  }

  /** The facts of one step of `RegisterAll`. */
  lemma RegisterAllStep(name: Naming, compiles: Compiler, fs: seq<FileRef>)
    requires |fs| > 0
    ensures var pre := fs[..|fs| - 1]; var f := fs[|fs| - 1];
      && (RegisterAll(name, compiles, fs).Success? <==>
           RegisterAll(name, compiles, pre).Success? &&
           (name(f).Some? ==> f.content.Some? && compiles(f.content.value)))
      && (RegisterAll(name, compiles, fs).Success? ==>
           RegisterAll(name, compiles, fs).value ==
             if name(f).None? then RegisterAll(name, compiles, pre).value
             else RegisterAll(name, compiles, pre).value[name(f).value := f.content.value])
  {
  }

  /** A load succeeds exactly when every template it reaches can be read and compiles. */
  lemma {:induction false} RegisterAllSucceeds(name: Naming, compiles: Compiler, fs: seq<FileRef>)
    ensures RegisterAll(name, compiles, fs).Success? <==> AllCompile(name, compiles, fs)
    decreases |fs|
  {
    if |fs| > 0 {
      var pre := fs[..|fs| - 1];
      RegisterAllStep(name, compiles, fs);
      RegisterAllSucceeds(name, compiles, pre);
      assert forall i :: 0 <= i < |pre| ==> pre[i] == fs[i];
    }
  }

  /** Some template of `fs` has name `k` exactly when one of all but the last has, or the last has. */
  lemma NamedSnoc(name: Naming, fs: seq<FileRef>, k: string)
    requires |fs| > 0
    ensures Named(name, fs, k) <==> Named(name, fs[..|fs| - 1], k) || name(fs[|fs| - 1]) == Some(k)
  {
    var pre := fs[..|fs| - 1];
    if Named(name, pre, k) {
      var i :| 0 <= i < |pre| && name(pre[i]) == Some(k);
      assert fs[i] == pre[i];
    }
    if Named(name, fs, k) {
      var i :| 0 <= i < |fs| && name(fs[i]) == Some(k);
      if i < |pre| {
        assert pre[i] == fs[i];
      }
    }
  }

  /** A successful load registers exactly the names of the templates it reached. */
  lemma {:induction false} RegisterAllKeys(name: Naming, compiles: Compiler, fs: seq<FileRef>)
    requires RegisterAll(name, compiles, fs).Success?
    ensures forall k :: k in RegisterAll(name, compiles, fs).value <==> Named(name, fs, k)
    decreases |fs|
  {
    if |fs| > 0 {
      RegisterAllStep(name, compiles, fs);
      RegisterAllKeys(name, compiles, fs[..|fs| - 1]);
      forall k {
        NamedSnoc(name, fs, k);
      }
    }
  }

  /** The template at index `i` is the last one in `fs` with its name. */
  ghost predicate LastWithName(name: Naming, fs: seq<FileRef>, i: nat)
    requires i < |fs|
  {
    forall j :: i < j < |fs| ==> name(fs[j]) != name(fs[i])
  }

  /** When two templates share a name, the one reached last wins. */
  lemma {:induction false} RegisterAllLastWins(name: Naming, compiles: Compiler, fs: seq<FileRef>, i: nat)
    requires RegisterAll(name, compiles, fs).Success?
    requires i < |fs| && name(fs[i]).Some? && LastWithName(name, fs, i)
    ensures fs[i].content.Some?
    ensures name(fs[i]).value in RegisterAll(name, compiles, fs).value
    ensures RegisterAll(name, compiles, fs).value[name(fs[i]).value] == fs[i].content.value
    decreases |fs|
  {
    var pre := fs[..|fs| - 1];
    RegisterAllStep(name, compiles, fs);
    if i < |pre| {
      assert pre[i] == fs[i];
      assert LastWithName(name, pre, i) by {
        forall j | i < j < |pre|
          ensures name(pre[j]) != name(pre[i])
        {
          assert pre[j] == fs[j];
        }
      }
      RegisterAllLastWins(name, compiles, pre, i);
    }
  }

  /** Joining two loads: the second one's names override the first one's. */
  function Then(x: Result<Registry, LoadError>, y: Result<Registry, LoadError>): Result<Registry, LoadError>
  {
    match x
    case Failure(err) => Failure(err)
    case Success(m) =>
      match y
      case Failure(err) => Failure(err)
      case Success(m') => Success(m + m')
  }

  /** Loading a concatenation is loading its parts one after the other. */
  lemma {:induction false} RegisterAllAppend(name: Naming, compiles: Compiler, a: seq<FileRef>, b: seq<FileRef>)
    ensures RegisterAll(name, compiles, a + b) == Then(RegisterAll(name, compiles, a), RegisterAll(name, compiles, b))
    decreases |b|
  {
    if |b| == 0 {
      assert a + b == a;
      match RegisterAll(name, compiles, a)
      case Failure(_) =>
      case Success(m) => assert m + map[] == m;
    } else {
      var b' := b[..|b| - 1];
      var f := b[|b| - 1];
      assert (a + b)[..|a + b| - 1] == a + b';
      assert (a + b)[|a + b| - 1] == f;
      RegisterAllAppend(name, compiles, a, b');
      match RegisterAll(name, compiles, a)
      case Failure(_) =>
      case Success(m) =>
        match RegisterAll(name, compiles, b')
        case Failure(_) =>
        case Success(m') =>
          if name(f).Some? && f.content.Some? && compiles(f.content.value) {
            var k := name(f).value;
            assert (m + m')[k := f.content.value] == m + m'[k := f.content.value];
          }
    }
  }

  /** `filepath.Walk` over the directory at `path` whose listing is `cs`, registering templates
      on the way; a directory that cannot be listed stops the walk. When every directory can
      be listed, the walk registers the files it reaches in walk order. */
  function LoadTemplatesDir(compiles: Compiler, path: string, cs: seq<Entry>): (r: Result<Registry, LoadError>)
    ensures AllReadable(cs) ==> r == RegisterAll(TemplateKey, compiles, Files(path, cs))
    ensures !AllReadable(cs) ==> r.Failure?
    decreases cs
  {
    if |cs| == 0 then Success(map[])
    else
      var pre := cs[..|cs| - 1];
      var e := cs[|cs| - 1];
      assert AllReadable(cs) <==> AllReadable(pre) && EntryReadable(e) by {
        assert forall i :: 0 <= i < |pre| ==> pre[i] == cs[i];
      }
      RegisterAllAppend(TemplateKey, compiles, Files(path, pre), FilesOf(path, e));
      match LoadTemplatesDir(compiles, path, pre)
      case Failure(err) => Failure(err)
      case Success(m) =>
        match e
        case Dir(n, readable, sub) =>
          if !readable then Failure(DirUnreadable(Join(path, n)))
          else
            (match LoadTemplatesDir(compiles, Join(path, n), sub)
             case Failure(err) => Failure(err)
             case Success(m') => Success(m + m'))
        case File(n, content) =>
          assert (Files(path, pre) + FilesOf(path, e))[..|Files(path, pre) + FilesOf(path, e)| - 1] == Files(path, pre);
          Register(TemplateKey, compiles, m, FileRef(Join(path, n), content))
  }

  /** Every file a load reaches lies below the template root, so it is registered exactly when
      its extension is `.hbs`. */
  lemma ReachedTemplateIffHbs(root: Option<Entry>, i: nat)
    requires i < |RootFiles(TemplatesDir, root)|
    ensures var f := RootFiles(TemplatesDir, root)[i];
      TemplateKey(f).Some? <==> Ext(f.path) == TemplateExt
  {
    assert Within(TemplatesDir, RootFiles(TemplatesDir, root)[i].path);
  }

  /** `loadTemplates`: the walk from the template root. It fails exactly when the root is
      missing, a directory under it cannot be listed, or a `.hbs` file cannot be read or does
      not compile; a root that is a plain file has no extension and yields no templates. */
  function LoadTemplates(compiles: Compiler, root: Option<Entry>): (r: Result<Registry, LoadError>)
    ensures r.Success? <==>
      root.Some? && EntryReadable(root.value) && AllCompile(TemplateKey, compiles, RootFiles(TemplatesDir, root))
    ensures r.Success? ==> r == RegisterAll(TemplateKey, compiles, RootFiles(TemplatesDir, root))
  {
    match root
    case None => Failure(RootMissing)
    case Some(File(_, _)) => Success(map[])
    case Some(Dir(_, readable, cs)) =>
      if !readable then Failure(DirUnreadable(TemplatesDir))
      else
        RegisterAllSucceeds(TemplateKey, compiles, Files(TemplatesDir, cs));
        LoadTemplatesDir(compiles, TemplatesDir, cs)
  }

  /** A successful load registers exactly the template names of the `.hbs` files reached. */
  lemma LoadTemplatesNames(compiles: Compiler, root: Option<Entry>)
    requires root.Some? && EntryReadable(root.value) && AllCompile(TemplateKey, compiles, RootFiles(TemplatesDir, root))
    ensures forall k :: k in LoadTemplates(compiles, root).value <==> Named(TemplateKey, RootFiles(TemplatesDir, root), k)
  {
    assert LoadTemplates(compiles, root).Success?;
    RegisterAllKeys(TemplateKey, compiles, RootFiles(TemplatesDir, root));
  }

  /** After a successful load, a name holds the content of the last `.hbs` file reached with
      that name. */
  lemma LoadTemplatesLastWins(compiles: Compiler, root: Option<Entry>, i: nat)
    requires root.Some? && EntryReadable(root.value) && AllCompile(TemplateKey, compiles, RootFiles(TemplatesDir, root))
    requires i < |RootFiles(TemplatesDir, root)| && TemplateKey(RootFiles(TemplatesDir, root)[i]).Some?
    requires LastWithName(TemplateKey, RootFiles(TemplatesDir, root), i)
    ensures var f := RootFiles(TemplatesDir, root)[i]; var r := LoadTemplates(compiles, root).value;
      && f.content.Some?
      && TemplateKey(f).value in r
      && r[TemplateKey(f).value] == f.content.value
  {
    assert LoadTemplates(compiles, root).Success?;
    RegisterAllLastWins(TemplateKey, compiles, RootFiles(TemplatesDir, root), i);
  }
}

=== FILE: tree.dfy ===
/** The part of the file system the processor reads, as an inductive tree. A directory's
    children are in the order the directory listing returns them. */
module Tree {
  import opened Wrappers
  import opened Paths

  newtype byte = x: int | 0 <= x < 256

  /** The raw content of a file. */
  type Bytes = seq<byte>

  /** A directory entry. `content` is `None` when reading the file fails; `readable` is false
      when listing the directory fails. */
  datatype Entry =
    | File(name: string, content: Option<Bytes>)
    | Dir(name: string, readable: bool, children: seq<Entry>)

  /** A non-directory entry reached by a walk, with the path the walk gives it. */
  datatype FileRef = FileRef(path: string, content: Option<Bytes>)

  /** Every path in `fs` lies inside `root`. */
  predicate AllWithin(root: string, fs: seq<FileRef>)
  {
    forall i :: 0 <= i < |fs| ==> Within(root, fs[i].path)
  }

  /** The non-directories reachable from the directory at `path` whose listing is `cs`,
      depth first and in listing order; unreadable directories contribute nothing. */
  function Files(path: string, cs: seq<Entry>): (fs: seq<FileRef>)
    ensures path != "" ==> AllWithin(path, fs)
    decreases cs
  {
    if |cs| == 0 then []
    else Files(path, cs[..|cs| - 1]) + FilesOf(path, cs[|cs| - 1])
  }

  /** The non-directories reachable from the entry `e` of the directory at `path`. */
  function FilesOf(path: string, e: Entry): (fs: seq<FileRef>)
    ensures path != "" ==> AllWithin(path, fs)
    decreases e
  {
    match e
    case File(n, content) =>
      WithinJoin(path, path, n);
      [FileRef(Join(path, n), content)]
    case Dir(n, readable, sub) =>
      if readable then
        var fs := Files(Join(path, n), sub);
        WithinAll(path, Join(path, n), fs);
        fs
      else []
  }

  /** The files a walk reaches from the root at `path`: none when the root is missing, is not
      a directory or cannot be listed. */
  function RootFiles(path: string, root: Option<Entry>): seq<FileRef>
  {
    if root.Some? && root.value.Dir? && root.value.readable then Files(path, root.value.children)
    else []
  }

  /** Everything inside `inner` is inside `outer` when `inner` is `outer` joined with a name. */
  lemma WithinAll(outer: string, inner: string, fs: seq<FileRef>)
    requires outer != "" ==> Within(outer, inner)
    requires inner != "" ==> AllWithin(inner, fs)
    ensures outer != "" ==> AllWithin(outer, fs)
  {
    forall i | 0 <= i < |fs| && outer != ""
      ensures Within(outer, fs[i].path)
    {
      var p := fs[i].path;
      if p != inner {
        assert p[..|outer|] == p[..|inner|][..|outer|];
      }
    }
  }

  /** Every directory reachable from the listing `cs` can be listed. */
  predicate AllReadable(cs: seq<Entry>)
    decreases cs
  {
    forall i :: 0 <= i < |cs| ==> EntryReadable(cs[i])
  }

  /** `e` is a file, or a directory that can be listed together with everything below it. */
  predicate EntryReadable(e: Entry)
    decreases e
  {
    e.Dir? ==> e.readable && AllReadable(e.children)
  }
}

=== FILE: wrappers.dfy ===
/** Failure-carrying datatypes shared by every module of the model. */
module Wrappers {

  /** A value that may be absent: Go's `nil` map or a lookup that found nothing. */
  datatype Option<+T> = None | Some(value: T)

  /** The outcome of an operation that either produces a value or stops with an error. */
  datatype Result<+R, +E> = Success(value: R) | Failure(error: E)
}
